=== FILE: README.md ===
# Student records backend: a Dafny model of its two tables

The backend (`server.js`) is an Express server over one SQLite file with two
tables: `students` (id, name, attendance, marks) and `users` (id, username,
password, role, studentId), with `username UNIQUE` and both ids
`AUTOINCREMENT`. Its handlers seed an admin account, register a student,
import a CSV roster, create staff accounts, log in, read one or all students,
update a student's attendance and marks by username, delete a student, and
compute admin statistics.

This project models the two tables as an in-memory store and each handler as
one atomic step over it.

- `schema.dfy` (module `Schema`) holds the rows and the `Tables` value. Each
  table is a sequence of rows in rowid order. `Tables` also keeps the two
  AUTOINCREMENT counters, so ids are never reused. The module also holds the
  invariant `Valid`, the three INSERT statements (a student, an account,
  and the seed's INSERT OR IGNORE of an account) and the two first-match
  lookups. `Valid` says that:
  - ids ascend;
  - usernames are unique;
  - every student account points at an existing student;
  - every staff and admin account points at 0.
- `credentials.dfy`: admin seed, `register`, `createStaff`, `login`.
- `bulk_import.dfy`: the row loop of `/uploadStudents`, over rows the CSV
  parser has already produced.
- `student_records.dfy`: `GET /student/:id`, `GET /students`,
  `/updateByUsername` and `/deleteStudent/:id`.
- `stats.dfy`: `/adminStats`, including JavaScript `parseInt` on the
  attendance column and `Math.round` of the mean.
- `server.dfy`: the class `Database`. Its fields are both tables and both
  counters, which it changes in place. Two methods, `InsertStudent` and
  `InsertUser`, are single INSERT statements; each is proved to change the
  state exactly as the matching `Schema` function does. The handler methods
  that write (`SeedAdmin`, `Register`, `UploadStudents`, `CreateStaff`,
  `UpdateByUsername`, `DeleteStudent`) are built from those statements and
  from in-place updates, issued in the handler's order. Each of them is
  proved to keep `Valid` and to end in exactly the state and reply that the
  matching function above gives.

Each handler that writes is a pure function from the tables to a `Step`,
which holds the reply and the new tables; the admin seed, which sends no
reply, gives the new tables alone. The read-only handlers (`Login`,
`GetStudent`, `ListStudents`, `AdminStats`) are functions from the tables to
their answer. The properties are lemmas and contracts about those functions.

The model follows the code, including behaviour the code's authors may not
have meant:

- `register` inserts the student before the account. If the username is
  taken, the student stays, with no account, and the reply is
  `{success: false, message: "User exists"}`.
- The CSV import has the same per-row behaviour. A row whose username is
  already taken, or is used by an earlier row of the same file, leaves a
  student with no account. The import still answers success.
- Deleting a student deletes every account whose `studentId` equals the
  given id, whatever its role. Staff and admin accounts carry `studentId`
  0, so `DELETE /deleteStudent/0` removes every staff and admin account,
  the seeded admin included.
- A plain INSERT that fails on the UNIQUE constraint aborts and is rolled
  back, so it does not advance the AUTOINCREMENT counter. The admin seed's
  INSERT OR IGNORE is different: SQLite draws the next rowid, and raises the
  counter, before the UNIQUE check skips the row, and the statement still
  completes. So every start-up at which "admin" already exists moves the
  users counter on by one without adding a row, and later account ids move
  with it. A start-up at which "admin" is missing (the first one, or one
  after `DELETE /deleteStudent/0` removed it) adds the admin row again.

## Model

| member | source | states |
|---|---|---|
| `Schema.FindUser` | server.js:126-130 | the account found has the requested username and is in the table; none is found exactly when no account has that username |
| `Schema.FindStudent` | server.js:132-136 | the row found has the requested id and is in the table; none is found exactly when no row has that id |
| `Schema.AppendStudentValid` | server.js:86-92 | inserting a student keeps the invariant and gives the new row the next counter value, an id no existing row has |
| `Schema.InsertUserValid` | server.js:59-65 | inserting an account keeps the invariant, usernames stay unique, and the username is taken afterwards whether or not the insert happened |
| `Schema.AppendStudent` | server.js:86-92 | the student INSERT always adds exactly one row, whose id is the raised counter, and leaves the accounts and their counter alone; `Schema.AppendStudentValid` states the invariant it keeps |
| `Schema.InsertUser` | server.js:94-96 | the account INSERT on a taken username changes nothing, the counter included; on a free one it adds one row with that username and raises the counter by one. `Schema.InsertUserValid` states the invariant it keeps |
| `Schema.InsertOrIgnoreUser` | server.js:187-190 | INSERT OR IGNORE leaves the same rows as the plain INSERT, but raises the users counter by one whether or not a row is added |
| `Schema.FindStudentExact` | server.js:110-114 | under the invariant, looking up the id of any stored student returns exactly that student |
| `Credentials.AddStudentWithLogin` | server.js:86-96 | the two inserts of one new student add exactly one student, raise its counter by one, and add at most one account; `Credentials.RegisterEffect` states the rest |
| `Credentials.Register` | server.js:83-106 | the reply is success exactly when the username was free, and one student is added in both cases; `Credentials.RegisterEffect` states the new rows |
| `Credentials.CreateStaff` | server.js:153-171 | the reply is success exactly when the username was free; then one account is added, otherwise nothing changes; students are never touched. `Credentials.CreateStaffEffect` states the new row |
| `Credentials.SeedAdmin` | server.js:187-190 | after the seed "admin" is taken, the students and their counter are untouched, and the users counter has moved on by one |
| `Credentials.CountRole` | server.js:197 | the count of a role is at most the number of accounts; `Credentials.CountRoleRows` states what it counts |
| `Credentials.CountRoleRows` | server.js:197 | the count of a role is the number of rows of the accounts table holding that role, as COUNT(*) with the role filter gives |
| `Credentials.Login` | server.js:72-79 | the account returned has exactly that username and that password; none is returned exactly when no account has both |
| `Credentials.LoginFindsUser` | server.js:72-79 | with unique usernames, every stored account logs in with its own username and password and gets itself back |
| `Credentials.CountRoleNone` | server.js:197 | a table without accounts of a role counts zero of that role |
| `Credentials.SeedAdminIdempotent` | server.js:187-190 | running the admin seed twice leaves the same rows in both tables and the same students counter as running it once; only the users counter moves on once more |
| `Credentials.SeedAdminEffect` | server.js:187-190 | the seed keeps the invariant and leaves "admin" taken. If "admin" was taken, only the users counter changes, by one. Otherwise the tables become the old ones with exactly the admin account (role admin, studentId 0, id the new counter value) appended and the users counter raised by one, the students and their counter untouched |
| `Credentials.AddStudentWithLoginValid` | server.js:86-96 | the student insert followed by the account insert keeps the invariant, so the new account points at an existing student |
| `Credentials.RegisterEffect` | server.js:86-103 | register always appends one student with the next id, "0%" and no marks, and raises the students counter to that id. The users counter rises by one on success and stays otherwise. It succeeds exactly when the username was free. On success it appends one student account pointing at that new student. Otherwise the accounts are unchanged, the reply is "User exists" and no account points at the new student. The invariant is kept. |
| `Credentials.RegisterThenLogin` | server.js:69-106 | after a successful registration, login with the same credentials returns the new student account, with role student and the new student's id |
| `Credentials.CreateStaffEffect` | server.js:158-170 | createStaff succeeds exactly when the username was free, and then the only change is one staff account appended with studentId 0 and id the users counter plus one, and that counter raised by one; the staff count rises by one. Otherwise both tables are unchanged and the reply is "Username already exists". The invariant is kept. |
| `BulkImport.ImportRows` | server.js:27-42 | importing n rows adds exactly n students, raises the students counter by n, and adds between 0 and n accounts; `BulkImport.UploadEffect` states which |
| `BulkImport.Upload` | server.js:25-45 | the upload answers success whatever the rows did, and adds one student per row |
| `BulkImport.UploadEffect` | server.js:27-44 | n rows append exactly n students with consecutive new ids, in row order, each "0%" with no marks. Old accounts stay as they were and at most n are added. A username is taken afterwards exactly when it was taken before or some row uses it. Each new account belongs to a row whose username was free and not used by an earlier row, has that row's credentials and role student, and points at that row's own student. Every such row gets its account. The invariant is kept. |
| `BulkImport.UploadAccountIds` | server.js:35-38 | the accounts the upload adds take the next ids of the users counter one after another, and the counter ends raised by exactly the number of accounts added |
| `BulkImport.EarlierRowAccount` | server.js:27-38 | an account added for an earlier row still belongs to that row's first claim on its username once later rows are imported |
| `BulkImport.OldAccountPointsBelow` | server.js:92-96 | under the invariant, an account already stored points at no student id above the students counter, so it cannot point at a student the upload adds |
| `BulkImport.NotRowAccount` | server.js:29-38 | no account, old or new, points at the student of a row that did not first claim its username |
| `BulkImport.UploadLeavesOrphan` | server.js:29-38 | a row that is not the first claim on a free username leaves its student with no account pointing at it |
| `StudentRecords.GetStudent` | server.js:109-120 | the student returned has the requested id and is stored; null is returned exactly when no student has that id |
| `StudentRecords.ListStudents` | server.js:175-185 | the list has one entry per stored student, and each of them can be read by its id; `StudentRecords.ListAgreesWithGet` states that the reads agree |
| `StudentRecords.UpsertMark` | server.js:138 | only the given subject can change, and only when both subject and mark are non-empty and the key is not a "__proto__" the object lacks as its own property; it then holds the new mark, and every other subject keeps its mark |
| `StudentRecords.SetAttendanceAndMarks` | server.js:140-142 | the UPDATE keeps the number of rows and every id and name; rows with that id get the new attendance and marks, and all other rows stay as they were |
| `StudentRecords.UpdateByUsername` | server.js:123-149 | the update never touches the accounts or the counters, keeps the number of students, answers "User not found" exactly when no account has the username, and changes nothing unless it answers success; `StudentRecords.UpdateStudentAccount` states the success case |
| `StudentRecords.DeleteStudent` | server.js:224-233 | the delete answers success, keeps both counters, never adds a student, and afterwards no student has that id; `StudentRecords.DeleteStudentEffect` states exactly what remains |
| `StudentRecords.WithoutStudent` | server.js:227 | the remaining rows are exactly the old rows with a different id; when no row has the id the table is unchanged |
| `StudentRecords.WithoutUsersOf` | server.js:229 | the remaining accounts are exactly the old accounts with a different studentId; when none has it the table is unchanged |
| `StudentRecords.WithoutStudentAscending` | server.js:227 | deleting students keeps the ids ascending |
| `StudentRecords.WithoutUsersOfAscending` | server.js:229 | deleting accounts keeps the ids ascending |
| `StudentRecords.ListAgreesWithGet` | server.js:175-185 | every listed student is what the single-student read returns for its id, and every student that read returns is listed |
| `StudentRecords.UpdateUnknownUser` | server.js:126-130 | an unknown username changes nothing and answers "User not found" |
| `StudentRecords.UpdateAccountWithoutStudent` | server.js:132-136 | for a staff or admin account no student row exists, and the update changes nothing |
| `StudentRecords.UpdateStudentAccount` | server.js:126-148 | for a student account, the update answers success. Only the linked student changes: its attendance is overwritten and its marks are upserted for the one subject. Every other student, all accounts and both counters stay the same, and the invariant is kept. |
| `StudentRecords.SetAttendanceAndMarksValid` | server.js:140-142 | the UPDATE statement keeps every id and so keeps the invariant |
| `StudentRecords.DeleteStudentEffect` | server.js:227-231 | delete leaves exactly the students with another id and the accounts with another studentId, keeps the counters and the invariant, and a read of that id then finds nothing |
| `StudentRecords.DeleteZeroRemovesStaffAndAdmin` | server.js:229 | deleting id 0 keeps every student and every student account, and removes every staff and admin account: both counts become 0 |
| `StatsAggregator.ParseInt` | server.js:206 | parseInt gives NaN exactly when the text starts neither with a digit nor with a sign followed by a digit; text starting with a digit gives a number of at least 0 |
| `StatsAggregator.ParseIntSigned` | server.js:206 | digits then a non-digit read as the digits' value; with a leading "+" the same value, with a leading "-" its negation |
| `StatsAggregator.ParseUnsigned` | server.js:206 | text whose digit prefix is not empty reads as the value of that prefix |
| `StatsAggregator.ParseAfterSign` | server.js:206 | after a leading "+" or "-", parseInt reads the non-empty digit prefix of the rest as its value, negated after "-" |
| `StatsAggregator.AttendanceValue` | server.js:206 | an empty attendance counts as 0 (the `|| "0"` default); `StatsAggregator.AttendanceOfDigits` states the value of a non-empty one |
| `StatsAggregator.DigitPrefix` | server.js:206 | the result is the longest prefix of the input made only of decimal digits |
| `StatsAggregator.DigitPrefixOf` | server.js:206 | digits followed by a non-digit or by nothing have exactly those digits as their digit prefix |
| `StatsAggregator.AttendanceOfDigits` | server.js:206 | an attendance such as "85%" (digits, then a non-digit or nothing) counts as the number its digits denote |
| `StatsAggregator.InitialAttendanceIsZero` | server.js:206 | the initial attendance "0%" counts as 0 |
| `StatsAggregator.RoundHalfUp` | server.js:209 | the rounded mean is the integer nearest to sum / n, with halves going up, as Math.round does |
| `StatsAggregator.RoundHalfUpWithin` | server.js:209 | the rounded mean of n values taken from [lo, hi] lies in [lo, hi] |
| `StatsAggregator.AttendanceSum` | server.js:205-208 | the summed attendance is NaN exactly when some attendance does not parse |
| `StatsAggregator.AttendanceSumBounds` | server.js:205-208 | if every attendance parses to a value in [lo, hi], the sum lies between n·lo and n·hi |
| `StatsAggregator.AdminStats` | server.js:192-218 | the student total is the number of students; the staff total is the number of account rows with role staff; with no students the average is 0 and nothing is divided by zero; otherwise, when every attendance parses, the average is the integer nearest to sum / n, halves going up |
| `StatsAggregator.AdminStatsNaN` | server.js:204-210 | with students, the average is NaN (sent as null) exactly when some attendance does not parse |
| `StatsAggregator.AdminStatsAverageWithin` | server.js:201-216 | when every attendance parses to a value in [lo, hi], the average is a number in [lo, hi] |
| `Server.Database.constructor` | server.js:49-66 | a new database has both tables empty with both counters at 0, and satisfies the invariant |
| `Server.Database.InsertStudent` | server.js:86-92 | the students table and its counter change as the student INSERT does, and the returned id is the new student's id (`this.lastID`) |
| `Server.Database.InsertUser` | server.js:94-96 | the accounts table and its counter change as the account INSERT does; it reports failure exactly when the username was taken |
| `Server.Database.SeedAdmin` | server.js:187-190 | the counter is raised first and the row added only when "admin" is free; the tables become the admin seed of the old tables, and the invariant is kept |
| `Server.Database.Register` | server.js:83-106 | the reply and the new tables are those of register on the old tables, and the invariant is kept |
| `Server.Database.UploadStudents` | server.js:19-46 | the loop over the rows leaves the tables as the import of all rows into the old tables, answers success, and keeps the invariant |
| `Server.Database.CreateStaff` | server.js:153-171 | the reply and the new tables are those of createStaff on the old tables, and the invariant is kept |
| `Server.Database.UpdateByUsername` | server.js:123-149 | the reply and the new tables are those of updateByUsername on the old tables, and the invariant is kept |
| `Server.Database.DeleteStudent` | server.js:224-233 | the reply and the new tables are those of deleteStudent on the old tables, and the invariant is kept |

## Left out

- HTTP routing, CORS, body parsing, static files and `app.listen`
  (server.js:1-9, 237-239). Requests are modelled as method and function
  calls with their parameters.
- The multer upload staging and reading the uploaded file (server.js:17,
  22). CSV parsing by the csv-parser library (server.js:23-24) is a foreign
  library. The import takes the parsed rows as a sequence of (name,
  username, password) values.
- The order of the upload's inserts. The source issues them fire-and-forget
  and the driver's callback order decides them (server.js:29-38). The model
  runs the rows one after another in file order. Which of two rows with the
  same username gets the account depends on that choice: here the earlier
  row wins.
- The handlers as several dependent statements. Each handler is one atomic
  step, so nothing can run between a student insert and its account insert,
  or between the two deletes.
- JSON text for marks (JSON.parse / JSON.stringify). Marks are a
  `map<string, string>`, and the "{}" written on insert is the empty map.
  A malformed stored blob, and the crash it would cause, are not modelled.
  Marks sent as JSON numbers rather than strings are not modelled.
- StatsAggregator.ParseInt: leading white space and the "0x" hexadecimal
  prefix, both of which JavaScript `parseInt` accepts, are not modelled.
  An attendance starting with white space is read as NaN here, where
  JavaScript skips the white space. One starting with "0x" is read as 0
  here (the digit prefix "0"), where JavaScript reads the rest as
  hexadecimal: "0x50" is 80 there.
- Floating point in `Math.round(sum / rows.length)` (server.js:209). It is
  replaced by the exact integer formula floor((2·sum + n) / (2·n)). For
  sums beyond 2^53 this can differ from the double computation.
- StudentRecords.UpdateByUsername: when the account's student row is
  missing, the source throws a TypeError inside the database callback
  (server.js:136). Nothing catches it, so by Node's default it ends the
  process: this request gets no answer, and no later request is answered
  either. Under the invariant this happens only for staff and admin
  accounts, whose studentId is 0. The model answers `StudentRowMissing`,
  changes nothing, and goes on serving later calls.
- NULL or undefined request fields, SQL type conversion of the string ids
  taken from the URL, console logging, and the error branches for store
  failures (server.js:90, 177). Ids are integers and fields are strings. An
  absent `subject` or `marks` is the empty string.

=== FILE: bulk_import.dfy ===
/** POST /uploadStudents over the rows the CSV parser produced. Each row is
    one student insert followed by one student-account insert; rows are taken
    in file order. */
module BulkImport {
  import opened Schema
  import opened Credentials

  /** The columns of one CSV data row that the handler reads. */
  datatype CsvRow = CsvRow(name: string, username: string, password: string)

  /** The tables after every row has had its two inserts, first row first. */
  function ImportRows(t: Tables, rows: seq<CsvRow>): (r: Tables)
    ensures |r.students| == |t.students| + |rows| && r.studentSeq == t.studentSeq + |rows|
    ensures |t.users| <= |r.users| <= |t.users| + |rows|
    decreases |rows|
  {
    if rows == [] then t
    else
      var last := rows[|rows| - 1];
      AddStudentWithLogin(ImportRows(t, rows[..|rows| - 1]), last.name, last.username, last.password)
  }

  /** The handler answers the same whatever the rows did. */
  function Upload(t: Tables, rows: seq<CsvRow>): (r: Step)
    ensures r.reply == StudentsUploaded
    ensures |r.tables.students| == |t.students| + |rows|
  {
    Step(StudentsUploaded, ImportRows(t, rows))
  }

  /** Row i gets its account: its username is neither in the table beforehand
      nor used by an earlier row of the same file. */
  predicate FirstClaim(users: seq<User>, rows: seq<CsvRow>, i: nat)
    requires i < |rows|
  {
    && !Taken(users, rows[i].username)
    && forall j :: 0 <= j < i ==> rows[j].username != rows[i].username
  }

  /** u is the account the upload creates for row i, whose student got id base + 1 + i. */
  ghost predicate RowAccount(base: nat, rows: seq<CsvRow>, i: nat, u: User)
    requires i < |rows|
  {
    u == User(u.id, rows[i].username, rows[i].password, StudentRole, base + 1 + i)
  }

  /** Some row of the file carries username x. */
  ghost predicate RowUses(rows: seq<CsvRow>, x: string)
  {
    exists j :: 0 <= j < |rows| && rows[j].username == x
  }

  /** r holds t's students followed by one "0%", mark-less student per row, in file order. */
  ghost predicate StudentsAppended(t: Tables, rows: seq<CsvRow>, r: Tables)
  {
    && r.studentSeq == t.studentSeq + |rows|
    && |r.students| == |t.students| + |rows|
    && r.students[..|t.students|] == t.students
    && forall i :: 0 <= i < |rows| ==>
         r.students[|t.students| + i] == Student(t.studentSeq + 1 + i, rows[i].name, InitialAttendance, map[])
  }

  /** r holds t's accounts followed by at most one new account per row. */
  ghost predicate UsersExtended(t: Tables, rows: seq<CsvRow>, r: Tables)
  {
    && |t.users| <= |r.users| <= |t.users| + |rows|
    && r.users[..|t.users|] == t.users
  }

  /** A username is taken afterwards exactly when it was before or some row uses it. */
  ghost predicate TakenAfter(t: Tables, rows: seq<CsvRow>, r: Tables)
  {
    forall x :: Taken(r.users, x) <==> Taken(t.users, x) || RowUses(rows, x)
  }

  /** Every new account belongs to a row that first claimed its username. */
  ghost predicate AccountsFromClaims(t: Tables, rows: seq<CsvRow>, r: Tables)
  {
    forall u :: u in r.users && u !in t.users ==>
      && t.studentSeq < u.studentId <= t.studentSeq + |rows|
      && FirstClaim(t.users, rows, u.studentId - t.studentSeq - 1)
      && RowAccount(t.studentSeq, rows, u.studentId - t.studentSeq - 1, u)
  }

  /** Every row that first claims its username has its account. */
  ghost predicate ClaimsHaveAccounts(t: Tables, rows: seq<CsvRow>, r: Tables)
  {
    forall i :: 0 <= i < |rows| && FirstClaim(t.users, rows, i) ==>
      exists u :: u in r.users && RowAccount(t.studentSeq, rows, i, u)
  }

  /** n rows give exactly n new students, each "0%" with no marks and the next
      ids in file order; an account is added for a row exactly when it is the
      first claim on its username, and it points at that row's own student. */
  lemma {:induction false} UploadEffect(t: Tables, rows: seq<CsvRow>)
    requires Valid(t)
    ensures var r := ImportRows(t, rows);
      && Valid(r)
      && StudentsAppended(t, rows, r)
      && UsersExtended(t, rows, r)
      && TakenAfter(t, rows, r)
      && AccountsFromClaims(t, rows, r)
      && ClaimsHaveAccounts(t, rows, r)
  {
    if rows == [] {
      assert t.students[..|t.students|] == t.students;
      assert t.users[..|t.users|] == t.users;
      return;
    }
    var n := |rows| - 1;
    UploadEffect(t, rows[..n]);
    var p := ImportRows(t, rows[..n]);
    RegisterEffect(p, rows[n].name, rows[n].username, rows[n].password);
    StudentsStep(t, rows);
    UsersStep(t, rows);
    ClaimStep(t, rows);
    TakenStep(t, rows);
    AccountsStep(t, rows);
    ClaimsStep(t, rows);
  }

  /** The accounts the upload adds take the next ids of the users counter, one
      after another, and the counter ends at the last of them. */
  lemma {:induction false} UploadAccountIds(t: Tables, rows: seq<CsvRow>)
    ensures var r := ImportRows(t, rows);
      && r.userSeq == t.userSeq + (|r.users| - |t.users|)
      && forall k :: |t.users| <= k < |r.users| ==> r.users[k].id == t.userSeq + 1 + (k - |t.users|)
  {
    if rows != [] {
      var n := |rows| - 1;
      UploadAccountIds(t, rows[..n]);
    }
  }

  /** The rows before the last one claim exactly as they did without it. */
  lemma {:induction false} FirstClaimPrefix(users: seq<User>, rows: seq<CsvRow>, i: nat)
    requires i < |rows| - 1
    ensures FirstClaim(users, rows[..|rows| - 1], i) == FirstClaim(users, rows, i)
  {
    assert forall j :: 0 <= j <= i ==> rows[..|rows| - 1][j] == rows[j];
  }

  lemma {:induction false} StudentsStep(t: Tables, rows: seq<CsvRow>)
    requires rows != []
    requires StudentsAppended(t, rows[..|rows| - 1], ImportRows(t, rows[..|rows| - 1]))
    ensures StudentsAppended(t, rows, ImportRows(t, rows))
  {
    var n := |rows| - 1;
    var p := ImportRows(t, rows[..n]);
    var r := ImportRows(t, rows);
    assert r.students == p.students + [Student(p.studentSeq + 1, rows[n].name, InitialAttendance, map[])];
    assert r.students[..|t.students|] == t.students by {
      assert r.students[..|p.students|] == p.students;
    }
    forall i | 0 <= i < |rows|
      ensures r.students[|t.students| + i] == Student(t.studentSeq + 1 + i, rows[i].name, InitialAttendance, map[])
    {
      if i < n {
        assert rows[..n][i] == rows[i];
        assert r.students[|t.students| + i] == p.students[|t.students| + i];
      }
    }
  }

  lemma {:induction false} UsersStep(t: Tables, rows: seq<CsvRow>)
    requires rows != []
    requires UsersExtended(t, rows[..|rows| - 1], ImportRows(t, rows[..|rows| - 1]))
    ensures UsersExtended(t, rows, ImportRows(t, rows))
  {
    var n := |rows| - 1;
    var p := ImportRows(t, rows[..n]);
    var r := ImportRows(t, rows);
    var row := rows[n];
    assert r == AddStudentWithLogin(p, row.name, row.username, row.password);
    assert r.users[..|p.users|] == p.users;
    assert r.users[..|t.users|] == t.users by {
      assert r.users[..|t.users|] == r.users[..|p.users|][..|t.users|];
    }
  }

  /** The last row claims its username exactly when the rows before left it free. */
  lemma {:induction false} ClaimStep(t: Tables, rows: seq<CsvRow>)
    requires rows != []
    requires TakenAfter(t, rows[..|rows| - 1], ImportRows(t, rows[..|rows| - 1]))
    ensures FirstClaim(t.users, rows, |rows| - 1)
        <==> !Taken(ImportRows(t, rows[..|rows| - 1]).users, rows[|rows| - 1].username)
  {
    var n := |rows| - 1;
    var prev := rows[..n];
    var name := rows[n].username;
    if RowUses(prev, name) {
      var j :| 0 <= j < n && prev[j].username == name;
      assert rows[j].username == name;
    } else {
      forall j | 0 <= j < n ensures rows[j].username != name {
        assert prev[j] == rows[j];
      }
    }
  }

  lemma {:induction false} TakenStep(t: Tables, rows: seq<CsvRow>)
    requires rows != []
    requires TakenAfter(t, rows[..|rows| - 1], ImportRows(t, rows[..|rows| - 1]))
    ensures TakenAfter(t, rows, ImportRows(t, rows))
  {
    var n := |rows| - 1;
    var prev := rows[..n];
    var p := ImportRows(t, prev);
    var r := ImportRows(t, rows);
    var row := rows[n];
    assert r == AddStudentWithLogin(p, row.name, row.username, row.password);
    forall x ensures Taken(r.users, x) <==> Taken(t.users, x) || RowUses(rows, x) {
      if Taken(p.users, x) {
        var u :| u in p.users && u.username == x;
        assert u in r.users;
      }
      if Taken(r.users, x) && !Taken(p.users, x) {
        assert x == row.username;
        assert rows[n].username == x;
      }
      if RowUses(rows, x) {
        var j :| 0 <= j < |rows| && rows[j].username == x;
        if j < n {
          assert prev[j] == rows[j];
        } else if !Taken(p.users, x) {
          assert r.users[|p.users|].username == x;
        }
      }
      if RowUses(prev, x) {
        var j :| 0 <= j < n && prev[j].username == x;
        assert rows[j].username == x;
      }
    }
  }

  /** An account added for one of the earlier rows still belongs to that row's
      first claim once the last row is added. */
  lemma EarlierRowAccount(t: Tables, rows: seq<CsvRow>, u: User)
    requires rows != []
    requires AccountsFromClaims(t, rows[..|rows| - 1], ImportRows(t, rows[..|rows| - 1]))
    requires u in ImportRows(t, rows[..|rows| - 1]).users && u !in t.users
    ensures t.studentSeq < u.studentId <= t.studentSeq + |rows|
    ensures FirstClaim(t.users, rows, u.studentId - t.studentSeq - 1)
    ensures RowAccount(t.studentSeq, rows, u.studentId - t.studentSeq - 1, u)
  {
    var prev := rows[..|rows| - 1];
    var i := u.studentId - t.studentSeq - 1;
    FirstClaimPrefix(t.users, rows, i);
    assert prev[i] == rows[i];
  }

  lemma {:induction false} AccountsStep(t: Tables, rows: seq<CsvRow>)
    requires rows != []
    requires StudentsAppended(t, rows[..|rows| - 1], ImportRows(t, rows[..|rows| - 1]))
    requires TakenAfter(t, rows[..|rows| - 1], ImportRows(t, rows[..|rows| - 1]))
    requires AccountsFromClaims(t, rows[..|rows| - 1], ImportRows(t, rows[..|rows| - 1]))
    ensures AccountsFromClaims(t, rows, ImportRows(t, rows))
  {
    var n := |rows| - 1;
    var prev := rows[..n];
    var p := ImportRows(t, prev);
    var r := ImportRows(t, rows);
    var row := rows[n];
    assert r == AddStudentWithLogin(p, row.name, row.username, row.password);
    ClaimStep(t, rows);
    forall u | u in r.users && u !in t.users
      ensures t.studentSeq < u.studentId <= t.studentSeq + |rows|
      ensures FirstClaim(t.users, rows, u.studentId - t.studentSeq - 1)
      ensures RowAccount(t.studentSeq, rows, u.studentId - t.studentSeq - 1, u)
    {
      if u in p.users {
        EarlierRowAccount(t, rows, u);
      } else {
        assert u == User(p.userSeq + 1, row.username, row.password, StudentRole, p.studentSeq + 1);
      }
    }
  }

  lemma {:induction false} ClaimsStep(t: Tables, rows: seq<CsvRow>)
    requires rows != []
    requires StudentsAppended(t, rows[..|rows| - 1], ImportRows(t, rows[..|rows| - 1]))
    requires TakenAfter(t, rows[..|rows| - 1], ImportRows(t, rows[..|rows| - 1]))
    requires ClaimsHaveAccounts(t, rows[..|rows| - 1], ImportRows(t, rows[..|rows| - 1]))
    ensures ClaimsHaveAccounts(t, rows, ImportRows(t, rows))
  {
    var n := |rows| - 1;
    var prev := rows[..n];
    var p := ImportRows(t, prev);
    var r := ImportRows(t, rows);
    var row := rows[n];
    assert r == AddStudentWithLogin(p, row.name, row.username, row.password);
    ClaimStep(t, rows);
    forall i | 0 <= i < |rows| && FirstClaim(t.users, rows, i)
      ensures exists u :: u in r.users && RowAccount(t.studentSeq, rows, i, u)
    {
      if i < n {
        FirstClaimPrefix(t.users, rows, i);
        var u :| u in p.users && RowAccount(t.studentSeq, prev, i, u);
        assert prev[i] == rows[i];
        assert u in r.users && RowAccount(t.studentSeq, rows, i, u);
      } else {
        var u := r.users[|p.users|];
        assert u in r.users && RowAccount(t.studentSeq, rows, i, u);
      }
    }
  }

  /** An account already stored points at no id above the students counter. */
  lemma OldAccountPointsBelow(t: Tables, u: User)
    requires Valid(t)
    requires u in t.users
    ensures u.studentId <= t.studentSeq
  {
    assert Linked(t.students, u);
    if u.role == StudentRole {
      var s :| s in t.students && s.id == u.studentId;
    }
  }

  /** A row that loses the race for its username leaves a student without an account. */
  lemma {:induction false} UploadLeavesOrphan(t: Tables, rows: seq<CsvRow>, i: nat)
    requires Valid(t)
    requires i < |rows|
    requires !FirstClaim(t.users, rows, i)
    ensures forall u :: u in ImportRows(t, rows).users ==> u.studentId != t.studentSeq + 1 + i
  {
    var r := ImportRows(t, rows);
    UploadEffect(t, rows);
    forall u | u in r.users ensures u.studentId != t.studentSeq + 1 + i {
      NotRowAccount(t, rows, r, i, u);
    }
  }

  /** No account of r, old or new, points at the student of a row that did
      not first claim its username. */
  lemma NotRowAccount(t: Tables, rows: seq<CsvRow>, r: Tables, i: nat, u: User)
    requires Valid(t)
    requires i < |rows|
    requires !FirstClaim(t.users, rows, i)
    requires AccountsFromClaims(t, rows, r)
    requires u in r.users
    ensures u.studentId != t.studentSeq + 1 + i
  {
    if u in t.users {
      OldAccountPointsBelow(t, u);
    } else {
      assert FirstClaim(t.users, rows, u.studentId - t.studentSeq - 1);
    }
  }
}

=== FILE: credentials.dfy ===
/** Accounts: the admin seed, registration, staff creation and login. */
module Credentials {
  import opened Schema

  /** INSERT OR IGNORE of the built-in admin account, run at every start-up. */
  function SeedAdmin(t: Tables): (r: Tables)
    ensures Taken(r.users, "admin")
    ensures r.students == t.students && r.studentSeq == t.studentSeq
    ensures r.userSeq == t.userSeq + 1
  {
    InsertOrIgnoreUser(t, "admin", "admin123", AdminRole, 0)
  }

  /** The two inserts of one registration: a new student, then a student
      account pointing at it. The second insert may fail on its own. */
  function AddStudentWithLogin(t: Tables, name: string, username: string, password: string): (r: Tables)
    ensures |r.students| == |t.students| + 1 && r.studentSeq == t.studentSeq + 1
    ensures |t.users| <= |r.users| <= |t.users| + 1
  {
    var withStudent := AppendStudent(t, name);
    InsertUser(withStudent, username, password, StudentRole, withStudent.studentSeq)
  }

  /** POST /register. */
  function Register(t: Tables, name: string, username: string, password: string): (r: Step)
    ensures r.reply == Registered <==> !Taken(t.users, username)
    ensures |r.tables.students| == |t.students| + 1
  {
    var reply := if Taken(t.users, username) then UserExists else Registered;
    Step(reply, AddStudentWithLogin(t, name, username, password))
  }

  /** POST /createStaff. */
  function CreateStaff(t: Tables, username: string, password: string): (r: Step)
    ensures r.reply == StaffCreated <==> !Taken(t.users, username)
    ensures r.tables.students == t.students
    ensures r.reply == StaffCreated ==> |r.tables.users| == |t.users| + 1
    ensures r.reply != StaffCreated ==> r.tables == t
  {
    var reply := if Taken(t.users, username) then UsernameExists else StaffCreated;
    Step(reply, InsertUser(t, username, password, StaffRole, 0))
  }

  /** POST /login: the first account whose username and password both match exactly. */
  function Login(users: seq<User>, username: string, password: string): (r: Option<User>)
    ensures r.Some? ==> r.value in users && r.value.username == username && r.value.password == password
    ensures r.None? <==> forall u :: u in users ==> !(u.username == username && u.password == password)
  {
    if users == [] then None
    else if users[0].username == username && users[0].password == password then Some(users[0])
    else Login(users[1..], username, password)
  }

  /** SELECT COUNT(*) FROM users WHERE role = role. */
  function CountRole(users: seq<User>, role: Role): (r: nat)
    ensures r <= |users|
  {
    if users == [] then 0
    else CountRole(users[..|users| - 1], role) + (if users[|users| - 1].role == role then 1 else 0)
  }

  lemma {:induction false} CountRoleNone(users: seq<User>, role: Role)
    requires forall u :: u in users ==> u.role != role
    ensures CountRole(users, role) == 0
  {
    if users != [] {
      assert users[|users| - 1] in users;
      CountRoleNone(users[..|users| - 1], role);
    }
  }

  /** Under unique usernames every account can log in with its own credentials,
      and gets exactly that account back. */
  lemma LoginFindsUser(users: seq<User>, u: User)
    requires UniqueUsernames(users)
    requires u in users
    ensures Login(users, u.username, u.password) == Some(u)
  {
  }

  /** SELECT COUNT(*) counts rows: CountRole is the number of positions of the
      table holding an account of that role. */
  lemma {:induction false} CountRoleRows(users: seq<User>, role: Role)
    ensures CountRole(users, role) == |set i | 0 <= i < |users| && users[i].role == role|
  {
    if users != [] {
      var n := |users| - 1;
      var prev := users[..n];
      CountRoleRows(prev, role);
      var before := set i | 0 <= i < n && prev[i].role == role;
      var after := set i | 0 <= i < |users| && users[i].role == role;
      if users[n].role == role {
        assert after == before + {n};
        assert n !in before;
      } else {
        assert after == before;
      }
    }
  }

  /** Running the seed again adds no row: both tables keep the rows the first
      run left, and only the users counter moves on. */
  lemma SeedAdminIdempotent(t: Tables)
    ensures SeedAdmin(SeedAdmin(t)).users == SeedAdmin(t).users
    ensures SeedAdmin(SeedAdmin(t)).students == SeedAdmin(t).students
    ensures SeedAdmin(SeedAdmin(t)).studentSeq == SeedAdmin(t).studentSeq
    ensures SeedAdmin(SeedAdmin(t)).userSeq == SeedAdmin(t).userSeq + 1
  {
    var s := SeedAdmin(t);
    if !Taken(t.users, "admin") {
      assert s.users[|t.users|] in s.users;
    }
  }

  /** The seed adds the admin account exactly when "admin" is free, and moves
      the users counter on in both cases. */
  lemma SeedAdminEffect(t: Tables)
    requires Valid(t)
    ensures Valid(SeedAdmin(t))
    ensures Taken(SeedAdmin(t).users, "admin")
    ensures Taken(t.users, "admin") ==> SeedAdmin(t) == t.(userSeq := t.userSeq + 1)
    ensures !Taken(t.users, "admin") ==>
      SeedAdmin(t) == t.(users := t.users + [User(t.userSeq + 1, "admin", "admin123", AdminRole, 0)],
                         userSeq := t.userSeq + 1)
  {
    InsertUserValid(t, "admin", "admin123", AdminRole, 0);
  }

  /** The two inserts of a registration keep the invariant: the account, if
      added, points at the student inserted just before it. */
  lemma AddStudentWithLoginValid(t: Tables, name: string, username: string, password: string)
    requires Valid(t)
    ensures Valid(AddStudentWithLogin(t, name, username, password))
  {
    AppendStudentValid(t, name);
    var withStudent := AppendStudent(t, name);
    InsertUserValid(withStudent, username, password, StudentRole, withStudent.studentSeq);
  }

  /** Registration always adds the student; it adds the student account only
      when the username is free, and otherwise leaves the new student orphaned. */
  lemma RegisterEffect(t: Tables, name: string, username: string, password: string)
    requires Valid(t)
    ensures var s := Register(t, name, username, password);
      var id := t.studentSeq + 1;
      && Valid(s.tables)
      && s.tables.students == t.students + [Student(id, name, InitialAttendance, map[])]
      && s.tables.studentSeq == id
      && s.tables.userSeq == t.userSeq + (if s.reply == Registered then 1 else 0)
      && (s.reply == Registered <==> !Taken(t.users, username))
      && (s.reply == Registered ==>
            s.tables.users == t.users + [User(t.userSeq + 1, username, password, StudentRole, id)])
      && (s.reply != Registered ==>
            && s.reply == UserExists
            && s.tables.users == t.users
            && forall u :: u in s.tables.users ==> u.studentId != id)
  {
    var withStudent := AppendStudent(t, name);
    AppendStudentValid(t, name);
    InsertUserValid(withStudent, username, password, StudentRole, withStudent.studentSeq);
    forall u | u in t.users ensures u.studentId != t.studentSeq + 1 {
      assert Linked(t.students, u);
    }
  }

  /** A successful registration can log in at once, as a student of the new row. */
  lemma RegisterThenLogin(t: Tables, name: string, username: string, password: string)
    requires Valid(t)
    requires !Taken(t.users, username)
    ensures Login(Register(t, name, username, password).tables.users, username, password)
         == Some(User(t.userSeq + 1, username, password, StudentRole, t.studentSeq + 1))
  {
    RegisterEffect(t, name, username, password);
    var r := Register(t, name, username, password).tables;
    var u := User(t.userSeq + 1, username, password, StudentRole, t.studentSeq + 1);
    assert r.users[|t.users|] == u;
    LoginFindsUser(r.users, u);
  }

  /** createStaff adds one staff account with studentId 0 when the username is
      free, and otherwise changes neither table. */
  lemma CreateStaffEffect(t: Tables, username: string, password: string)
    requires Valid(t)
    ensures var s := CreateStaff(t, username, password);
      && Valid(s.tables)
      && (s.reply == StaffCreated <==> !Taken(t.users, username))
      && (s.reply == StaffCreated ==>
            && s.tables == t.(users := t.users + [User(t.userSeq + 1, username, password, StaffRole, 0)],
                              userSeq := t.userSeq + 1)
            && CountRole(s.tables.users, StaffRole) == CountRole(t.users, StaffRole) + 1)
      && (s.reply != StaffCreated ==> s.reply == UsernameExists && s.tables == t)
  {
    InsertUserValid(t, username, password, StaffRole, 0);
    var s := CreateStaff(t, username, password);
    if !Taken(t.users, username) {
      assert s.tables.users[..|s.tables.users| - 1] == t.users;
    }
  }
}

=== FILE: schema.dfy ===
/** The two tables of the records database, the invariant they keep and the
    single-statement writes (INSERT into each table) the handlers are built from.

    A table is the sequence of its rows in rowid order, which is the order a
    SELECT without ORDER BY visits them in; `db.get` returns the first match. */
module Schema {

  datatype Option<+T> = None | Some(value: T)

  /** The `role` column; the source writes only these three values. */
  datatype Role = StudentRole | StaffRole | AdminRole

  /** A row of `students`. `marks` is the decoded marks blob; the empty blob
      "{}" written on insert is the empty map. */
  datatype Student = Student(id: nat, name: string, attendance: string, marks: map<string, string>)

  /** A row of `users`. Staff and admin rows carry studentId 0. */
  datatype User = User(id: nat, username: string, password: string, role: Role, studentId: int)

  /** Both tables with the AUTOINCREMENT counters kept in sqlite_sequence:
      the largest id ever handed out in each table (0 before the first insert). */
  datatype Tables = Tables(students: seq<Student>, users: seq<User>, studentSeq: nat, userSeq: nat)

  /** The JSON answer of each handler. */
  datatype Reply =
    | Registered          // {success: true}
    | UserExists          // {success: false, message: "User exists"}
    | StudentsUploaded    // {message: "Students uploaded successfully"}
    | StaffCreated        // {message: "Staff account created successfully"}
    | UsernameExists      // {message: "Username already exists"}
    | StudentUpdated      // {message: "Student updated successfully"}
    | UserNotFound        // {message: "User not found"}
    | StudentRowMissing   // no answer: the handler throws reading the missing row, which ends the process
    | StudentDeleted      // {message: "Student deleted successfully"}

  /** One handler call: what it answers and the tables afterwards. */
  datatype Step = Step(reply: Reply, tables: Tables)

  /** Both tables freshly created by CREATE TABLE IF NOT EXISTS. */
  const EmptyTables := Tables([], [], 0, 0)

  /** The attendance every new student starts with. */
  const InitialAttendance := "0%"

  function StudentIds(students: seq<Student>): set<int>
  {
    set s | s in students :: s.id as int
  }

  /** The UNIQUE constraint on `username` would reject `username`. */
  predicate Taken(users: seq<User>, username: string)
  {
    exists u :: u in users && u.username == username
  }

  ghost predicate StudentIdsAscending(students: seq<Student>)
  {
    forall i, j :: 0 <= i < j < |students| ==> students[i].id < students[j].id
  }

  ghost predicate UserIdsAscending(users: seq<User>)
  {
    forall i, j :: 0 <= i < j < |users| ==> users[i].id < users[j].id
  }

  ghost predicate UniqueUsernames(users: seq<User>)
  {
    forall x, y :: x in users && y in users && x.username == y.username ==> x == y
  }

  /** A student account points at an existing student; every other account at 0. */
  ghost predicate Linked(students: seq<Student>, u: User)
  {
    if u.role == StudentRole then u.studentId in StudentIds(students) else u.studentId == 0
  }

  /** What every reachable state of the two tables satisfies. */
  ghost predicate Valid(t: Tables)
  {
    && StudentIdsAscending(t.students)
    && (forall s :: s in t.students ==> 1 <= s.id <= t.studentSeq)
    && UserIdsAscending(t.users)
    && (forall u :: u in t.users ==> 1 <= u.id <= t.userSeq)
    && UniqueUsernames(t.users)
    && (forall u :: u in t.users ==> Linked(t.students, u))
  }

  /** INSERT INTO students (name, attendance, marks) VALUES (name, "0%", "{}"):
      never fails and takes the next id. */
  function AppendStudent(t: Tables, name: string): (r: Tables)
    ensures r.users == t.users && r.userSeq == t.userSeq
    ensures r.studentSeq == t.studentSeq + 1
    ensures |r.students| == |t.students| + 1 && r.students[|t.students|].id == r.studentSeq
  {
    var id := t.studentSeq + 1;
    t.(students := t.students + [Student(id, name, InitialAttendance, map[])], studentSeq := id)
  }

  /** INSERT INTO users: on a UNIQUE conflict the statement aborts and is rolled
      back, so nothing changes, the counter included. */
  function InsertUser(t: Tables, username: string, password: string, role: Role, studentId: int): (r: Tables)
    ensures r.students == t.students && r.studentSeq == t.studentSeq
    ensures Taken(t.users, username) ==> r == t
    ensures !Taken(t.users, username) ==>
      && r.userSeq == t.userSeq + 1
      && |r.users| == |t.users| + 1 && r.users[|t.users|].username == username
  {
    if Taken(t.users, username) then t
    else
      var id := t.userSeq + 1;
      t.(users := t.users + [User(id, username, password, role, studentId)], userSeq := id)
  }

  /** INSERT OR IGNORE INTO users: SQLite draws the next AUTOINCREMENT rowid, and
      raises the counter with it, before the UNIQUE check; a conflict then skips
      the row but the statement completes, so the counter advances either way.
      The rows are those the plain INSERT leaves. */
  function InsertOrIgnoreUser(t: Tables, username: string, password: string, role: Role, studentId: int): (r: Tables)
    ensures r.students == t.students && r.studentSeq == t.studentSeq
    ensures r.userSeq == t.userSeq + 1
    ensures r.users == InsertUser(t, username, password, role, studentId).users
  {
    var id := t.userSeq + 1;
    var users := if Taken(t.users, username) then t.users else t.users + [User(id, username, password, role, studentId)];
    t.(users := users, userSeq := id)
  }

  /** The first user with that username (SELECT ... FROM users WHERE username=?). */
  function FindUser(users: seq<User>, username: string): (r: Option<User>)
    ensures r.Some? ==> r.value in users && r.value.username == username
    ensures r.None? <==> !Taken(users, username)
  {
    if users == [] then None
    else if users[0].username == username then Some(users[0])
    else FindUser(users[1..], username)
  }

  /** The first student with that id (SELECT * FROM students WHERE id=?). */
  function FindStudent(students: seq<Student>, id: int): (r: Option<Student>)
    ensures r.Some? ==> r.value in students && r.value.id == id
    ensures r.None? <==> id !in StudentIds(students)
  {
    if students == [] then None
    else if students[0].id == id then Some(students[0])
    else FindStudent(students[1..], id)
  }

  lemma AppendStudentValid(t: Tables, name: string)
    requires Valid(t)
    ensures Valid(AppendStudent(t, name))
    ensures t.studentSeq + 1 in StudentIds(AppendStudent(t, name).students)
    ensures t.studentSeq + 1 !in StudentIds(t.students)
  {
    var r := AppendStudent(t, name);
    var s := r.students[|t.students|];
    assert s in r.students;
    forall u | u in r.users ensures Linked(r.students, u) {
      assert Linked(t.students, u);
      if u.role == StudentRole {
        var w :| w in t.students && w.id == u.studentId;
        assert w in r.students;
      }
    }
  }

  lemma InsertUserValid(t: Tables, username: string, password: string, role: Role, studentId: int)
    requires Valid(t)
    requires role == StudentRole ==> studentId in StudentIds(t.students)
    requires role != StudentRole ==> studentId == 0
    ensures Valid(InsertUser(t, username, password, role, studentId))
    ensures Taken(InsertUser(t, username, password, role, studentId).users, username)
  {
    var r := InsertUser(t, username, password, role, studentId);
    if !Taken(t.users, username) {
      var n := r.users[|t.users|];
      assert n in r.users;
      forall x, y | x in r.users && y in r.users && x.username == y.username ensures x == y {
        if x != n && y != n {
          assert x in t.users && y in t.users;
        }
      }
    }
  }

  /** Under the invariant a student id picks out exactly one row. */
  lemma FindStudentExact(students: seq<Student>, s: Student)
    requires StudentIdsAscending(students)
    requires s in students
    ensures FindStudent(students, s.id) == Some(s)
  {
    var f := FindStudent(students, s.id).value;
    var i :| 0 <= i < |students| && students[i] == s;
    var j :| 0 <= j < |students| && students[j] == f;
    assert i == j;
  }
}

=== FILE: server.dfy ===
/** The database handle the handlers share: both tables and their
    AUTOINCREMENT counters, changed in place one handler call at a time.
    InsertStudent and InsertUser are single INSERT statements, proved to change
    the state as the matching Schema function does. Every other method is one
    writing handler run to completion, built from those statements and
    in-place updates, and proved to keep Valid and to leave the tables as the
    matching function of Credentials, BulkImport or StudentRecords says.
    The read-only handlers (login, GET /student/:id, GET /students,
    GET /adminStats) are those functions applied to State(). */
module Server {
  import opened Schema
  import Credentials
  import BulkImport
  import StudentRecords

  class Database {
    var students: seq<Student>
    var users: seq<User>
    var studentSeq: nat
    var userSeq: nat

    function State(): Tables
      reads this
    {
      Tables(students, users, studentSeq, userSeq)
    }

    ghost predicate Valid()
      reads this
    {
      Schema.Valid(State())
    }

    /** Opening a new database file and creating both tables. */
    constructor ()
      ensures Valid()
      ensures State() == EmptyTables
    {
      students, users := [], [];
      studentSeq, userSeq := 0, 0;
    }

    /** INSERT INTO students ... VALUES (name, "0%", "{}"); `id` is this.lastID. */
    method InsertStudent(name: string) returns (id: nat)
      modifies this
      ensures State() == AppendStudent(old(State()), name)
      ensures id == studentSeq
    {
      studentSeq := studentSeq + 1;
      students := students + [Student(studentSeq, name, InitialAttendance, map[])];
      id := studentSeq;
    }

    /** INSERT INTO users ...; `inserted` is false when the UNIQUE constraint fires. */
    method InsertUser(username: string, password: string, role: Role, studentId: int) returns (inserted: bool)
      modifies this
      ensures State() == Schema.InsertUser(old(State()), username, password, role, studentId)
      ensures inserted == !Taken(old(users), username)
    {
      if Taken(users, username) {
        return false;
      }
      userSeq := userSeq + 1;
      users := users + [User(userSeq, username, password, role, studentId)];
      inserted := true;
    }

    /** The INSERT OR IGNORE of the admin account at start-up: the rowid is
        drawn first, then the UNIQUE check may skip the row. */
    method SeedAdmin()
      requires Valid()
      modifies this
      ensures Valid()
      ensures State() == Credentials.SeedAdmin(old(State()))
    {
      Credentials.SeedAdminEffect(State());
      userSeq := userSeq + 1;
      if !Taken(users, "admin") {
        users := users + [User(userSeq, "admin", "admin123", AdminRole, 0)];
      }
    }

    /** POST /register: the student insert, then the account insert that uses its id. */
    method Register(name: string, username: string, password: string) returns (reply: Reply)
      requires Valid()
      modifies this
      ensures Valid()
      ensures Step(reply, State()) == Credentials.Register(old(State()), name, username, password)
    {
      Credentials.RegisterEffect(State(), name, username, password);
      var studentId := InsertStudent(name);
      var inserted := InsertUser(username, password, StudentRole, studentId);
      reply := if inserted then Registered else UserExists;
    }

    /** POST /uploadStudents: the two inserts of each parsed row, in file order. */
    method UploadStudents(rows: seq<BulkImport.CsvRow>) returns (reply: Reply)
      requires Valid()
      modifies this
      ensures Valid()
      ensures Step(reply, State()) == BulkImport.Upload(old(State()), rows)
    {
      var i := 0;
      while i < |rows|
        invariant 0 <= i <= |rows|
        invariant Valid()
        invariant State() == BulkImport.ImportRows(old(State()), rows[..i])
      {
        var row := rows[i];
        Credentials.AddStudentWithLoginValid(State(), row.name, row.username, row.password);
        var studentId := InsertStudent(row.name);
        var _ := InsertUser(row.username, row.password, StudentRole, studentId);
        assert rows[..i + 1][..i] == rows[..i];
        i := i + 1;
      }
      assert rows[..|rows|] == rows;
      reply := StudentsUploaded;
    }

    /** POST /createStaff. */
    method CreateStaff(username: string, password: string) returns (reply: Reply)
      requires Valid()
      modifies this
      ensures Valid()
      ensures Step(reply, State()) == Credentials.CreateStaff(old(State()), username, password)
    {
      Credentials.CreateStaffEffect(State(), username, password);
      var inserted := InsertUser(username, password, StaffRole, 0);
      reply := if inserted then StaffCreated else UsernameExists;
    }

    /** POST /updateByUsername: look the account up, read the linked student's
        marks, upsert the one subject, write attendance and marks back. */
    method UpdateByUsername(username: string, attendance: string, subject: string, mark: string)
      returns (reply: Reply)
      requires Valid()
      modifies this
      ensures Valid()
      ensures Step(reply, State()) == StudentRecords.UpdateByUsername(old(State()), username, attendance, subject, mark)
    {
      var user := FindUser(users, username);
      if user.None? {
        return UserNotFound;
      }
      var studentId := user.value.studentId;
      var row := FindStudent(students, studentId);
      if row.None? {
        return StudentRowMissing;
      }
      var marksObj := row.value.marks;
      if subject != "" && mark != "" && StudentRecords.StoresOwnProperty(marksObj, subject) {
        marksObj := marksObj[subject := mark];
      }
      StudentRecords.SetAttendanceAndMarksValid(State(), studentId, attendance, marksObj);
      students := StudentRecords.SetAttendanceAndMarks(students, studentId, attendance, marksObj);
      reply := StudentUpdated;
    }

    /** DELETE /deleteStudent/:id: the student delete, then the account delete. */
    method DeleteStudent(id: int) returns (reply: Reply)
      requires Valid()
      modifies this
      ensures Valid()
      ensures Step(reply, State()) == StudentRecords.DeleteStudent(old(State()), id)
    {
      StudentRecords.DeleteStudentEffect(State(), id);
      students := StudentRecords.WithoutStudent(students, id);
      users := StudentRecords.WithoutUsersOf(users, id);
      reply := StudentDeleted;
    }
  }
}

=== FILE: stats.dfy ===
/** GET /adminStats: the student count, the staff count and the rounded mean
    attendance. */
module StatsAggregator {
  import opened Schema
  import opened Credentials

  predicate IsDigit(c: char)
  {
    '0' <= c <= '9'
  }

  predicate AllDigits(s: string)
  {
    forall k :: 0 <= k < |s| ==> IsDigit(s[k])
  }

  /** The longest prefix of s made of decimal digits. */
  function DigitPrefix(s: string): (r: string)
    ensures |r| <= |s| && r == s[..|r|]
    ensures AllDigits(r)
    ensures |r| < |s| ==> !IsDigit(s[|r|])
  {
    if s == [] || !IsDigit(s[0]) then [] else [s[0]] + DigitPrefix(s[1..])
  }

  /** The number a run of decimal digits denotes. */
  function DigitsValue(ds: string): nat
    requires AllDigits(ds)
  {
    if ds == [] then 0 else 10 * DigitsValue(ds[..|ds| - 1]) + (ds[|ds| - 1] as int - '0' as int)
  }

  /** JavaScript parseInt(s) with the default radix, for s without leading
      white space: an optional sign, then the longest run of decimal digits;
      no digit at all is NaN, here None. */
  function ParseInt(s: string): (r: Option<int>)
    ensures r.None? <==>
      !(|s| > 0 && IsDigit(s[0])) && !(|s| > 1 && (s[0] == '-' || s[0] == '+') && IsDigit(s[1]))
    ensures |s| > 0 && IsDigit(s[0]) ==> r.Some? && r.value >= 0
  {
    var negative := |s| > 0 && s[0] == '-';
    var unsigned := if |s| > 0 && (s[0] == '-' || s[0] == '+') then s[1..] else s;
    var ds := DigitPrefix(unsigned);
    var magnitude: int := DigitsValue(ds);
    if ds == [] then None
    else if negative then Some(-magnitude)
    else Some(magnitude)
  }

  /** parseInt(r.attendance || "0"): an empty attendance counts as 0. */
  function AttendanceValue(attendance: string): (r: Option<int>)
    ensures attendance == "" ==> r == Some(0)
  {
    var s := if attendance == "" then "0" else attendance;
    assert attendance == "" ==> DigitPrefix(s) == "0" && DigitsValue("0") == 0;
    ParseInt(s)
  }

  /** The reduce over the attendance column, first row first; one NaN makes the
      whole sum NaN. */
  function AttendanceSum(students: seq<Student>): (r: Option<int>)
    ensures r.None? <==> exists s :: s in students && AttendanceValue(s.attendance).None?
  {
    if students == [] then Some(0)
    else
      var prev := students[..|students| - 1];
      var last := students[|students| - 1];
      assert students == prev + [last];
      match (AttendanceSum(prev), AttendanceValue(last.attendance))
      case (Some(a), Some(v)) => Some(a + v)
      case _ => None
  }

  /** Math.round(sum / n) for n > 0, in integers: floor(sum / n + 1/2), the
      integer nearest to sum / n with halves going up. */
  function RoundHalfUp(sum: int, n: int): (r: int)
    requires n > 0
    ensures 2 * n * r - n <= 2 * sum < 2 * n * r + n
  {
    var q := (2 * sum + n) / (2 * n);
    var m := (2 * sum + n) % (2 * n);
    assert 2 * sum + n == 2 * n * q + m;
    assert 0 <= m < 2 * n;
    q
  }

  /** The JSON answer of GET /adminStats; a NaN average is None (it is sent as null). */
  datatype AdminStatsReply = AdminStatsReply(totalStudents: nat, totalStaff: nat, avgAttendance: Option<int>)

  function AdminStats(t: Tables): (r: AdminStatsReply)
    ensures r.totalStudents == |t.students| && r.totalStaff <= |t.users|
    ensures r.totalStaff == |set i | 0 <= i < |t.users| && t.users[i].role == StaffRole|
    ensures t.students == [] ==> r.avgAttendance == Some(0)
    ensures t.students != [] && AttendanceSum(t.students).Some? ==>
      var n, sum := |t.students|, AttendanceSum(t.students).value;
      && r.avgAttendance.Some?
      && 2 * n * r.avgAttendance.value - n <= 2 * sum < 2 * n * r.avgAttendance.value + n
  {
    CountRoleRows(t.users, StaffRole);
    var n := |t.students|;
    var avg :=
      if n == 0 then Some(0)
      else match AttendanceSum(t.students)
        case None => None
        case Some(sum) => Some(RoundHalfUp(sum, n));
    AdminStatsReply(n, CountRole(t.users, StaffRole), avg)
  }

  lemma {:induction false} DigitPrefixOf(ds: string, rest: string)
    requires AllDigits(ds)
    requires rest == [] || !IsDigit(rest[0])
    ensures DigitPrefix(ds + rest) == ds
  {
    if ds != [] {
      assert (ds + rest)[1..] == ds[1..] + rest;
      DigitPrefixOf(ds[1..], rest);
    } else {
      assert ds + rest == rest;
    }
  }

  /** An attendance written as digits followed by a non-digit, such as "85%",
      counts as the number those digits denote. */
  lemma AttendanceOfDigits(ds: string, rest: string)
    requires ds != [] && AllDigits(ds)
    requires rest == [] || !IsDigit(rest[0])
    ensures AttendanceValue(ds + rest) == Some(DigitsValue(ds))
  {
    DigitPrefixOf(ds, rest);
  }

  /** parseInt reads digits after an optional sign: "+" keeps the value and
      "-" negates it, whatever follows the first non-digit. */
  lemma ParseIntSigned(ds: string, rest: string)
    requires ds != [] && AllDigits(ds)
    requires rest == [] || !IsDigit(rest[0])
    ensures ParseInt(ds + rest) == Some(DigitsValue(ds))
    ensures ParseInt(['+'] + (ds + rest)) == Some(DigitsValue(ds))
    ensures ParseInt(['-'] + (ds + rest)) == Some(-(DigitsValue(ds) as int))
  {
    DigitPrefixOf(ds, rest);
    ParseUnsigned(ds + rest, ds);
    ParseAfterSign('+', ds + rest, ds);
    ParseAfterSign('-', ds + rest, ds);
  }

  /** Text whose digit prefix ds is not empty reads as the value of ds. */
  lemma ParseUnsigned(s: string, ds: string)
    requires DigitPrefix(s) == ds && ds != []
    ensures ParseInt(s) == Some(DigitsValue(ds))
  {
    assert s[0] == ds[0];
  }

  /** After a leading "+" or "-", parseInt reads the digit prefix of the rest,
      negated after "-". */
  lemma ParseAfterSign(c: char, s: string, ds: string)
    requires c == '+' || c == '-'
    requires DigitPrefix(s) == ds && ds != []
    ensures c == '+' ==> ParseInt([c] + s) == Some(DigitsValue(ds))
    ensures c == '-' ==> ParseInt([c] + s) == Some(-(DigitsValue(ds) as int))
  {
    assert ([c] + s)[1..] == s;
  }

  /** Every new student starts at attendance 0. */
  lemma InitialAttendanceIsZero()
    ensures AttendanceValue(InitialAttendance) == Some(0)
  {
    AttendanceOfDigits("0", "%");
    assert "0" + "%" == InitialAttendance;
  }

  /** If every attendance parses to a value in [lo, hi], the sum lies in [n * lo, n * hi]. */
  lemma {:induction false} AttendanceSumBounds(students: seq<Student>, lo: int, hi: int)
    requires forall s :: s in students ==>
      AttendanceValue(s.attendance).Some? && lo <= AttendanceValue(s.attendance).value <= hi
    ensures AttendanceSum(students).Some?
    ensures |students| * lo <= AttendanceSum(students).value <= |students| * hi
  {
    if students != [] {
      var n := |students| - 1;
      var prev := students[..n];
      assert forall s :: s in prev ==> s in students;
      AttendanceSumBounds(prev, lo, hi);
      assert students[n] in students;
      var a := AttendanceSum(prev).value;
      var v := AttendanceValue(students[n].attendance).value;
      assert AttendanceSum(students) == Some(a + v);
      MulStep(n, lo);
      MulStep(n, hi);
    }
  }

  lemma MulStep(n: int, x: int)
    ensures (n + 1) * x == n * x + x
  {
  }

  /** With students, the average is null exactly when some attendance is not a number. */
  lemma AdminStatsNaN(t: Tables)
    requires t.students != []
    ensures AdminStats(t).avgAttendance.None? <==>
      exists s :: s in t.students && AttendanceValue(s.attendance).None?
  {
  }

  /** The average of attendances that all lie in [lo, hi] lies in [lo, hi]; in
      particular percentages stay percentages. */
  lemma AdminStatsAverageWithin(t: Tables, lo: int, hi: int)
    requires t.students != []
    requires forall s :: s in t.students ==>
      AttendanceValue(s.attendance).Some? && lo <= AttendanceValue(s.attendance).value <= hi
    ensures AdminStats(t).avgAttendance.Some?
    ensures lo <= AdminStats(t).avgAttendance.value <= hi
  {
    var n := |t.students|;
    AttendanceSumBounds(t.students, lo, hi);
    RoundHalfUpWithin(AttendanceSum(t.students).value, n, lo, hi);
  }

  /** Rounding the mean of n values from [lo, hi] stays in [lo, hi]. */
  lemma RoundHalfUpWithin(sum: int, n: int, lo: int, hi: int)
    requires n > 0
    requires n * lo <= sum <= n * hi
    ensures lo <= RoundHalfUp(sum, n) <= hi
  {
    var q := RoundHalfUp(sum, n);
    assert 2 * n * (q - hi) <= n by {
      assert 2 * n * (q - hi) == 2 * n * q - 2 * (n * hi);
    }
    assert 2 * n * (lo - q) < n by {
      assert 2 * n * (lo - q) == 2 * (n * lo) - 2 * n * q;
    }
    HalfBound(n, q - hi);
    HalfBound(n, lo - q);
  }

  lemma HalfBound(n: int, x: int)
    requires n > 0 && 2 * n * x <= n
    ensures x <= 0
  {
  }
}

=== FILE: student_records.dfy ===
/** The student handlers: GET /student/:id, GET /students, POST /updateByUsername
    and DELETE /deleteStudent/:id. */
module StudentRecords {
  import opened Schema
  import opened Credentials

  /** GET /student/:id: the row with its marks decoded, or null. */
  function GetStudent(t: Tables, id: int): (r: Option<Student>)
    ensures r.Some? ==> r.value in t.students && r.value.id == id
    ensures r.None? <==> id !in StudentIds(t.students)
  {
    FindStudent(t.students, id)
  }

  /** GET /students: every row, marks decoded, in rowid order. */
  function ListStudents(t: Tables): (r: seq<Student>)
    ensures |r| == |t.students|
    ensures forall s :: s in r ==> GetStudent(t, s.id).Some?
  {
    t.students
  }

  /** `marksObj[subject] = marks` on a plain object stores an own property,
      except for the key "__proto__": that names the prototype setter, which
      ignores a string, unless the object already has an own property of that
      name. */
  predicate StoresOwnProperty(marks: map<string, string>, subject: string)
  {
    subject != "__proto__" || subject in marks
  }

  /** `if (subject && marks) marksObj[subject] = marks`: only a non-empty subject
      with a non-empty mark is written, and it replaces that subject's old mark. */
  function UpsertMark(marks: map<string, string>, subject: string, mark: string): (r: map<string, string>)
    ensures forall k :: k != subject ==> (k in r <==> k in marks)
    ensures forall k :: k != subject && k in marks ==> r[k] == marks[k]
    ensures subject != "" && mark != "" && StoresOwnProperty(marks, subject) ==> subject in r && r[subject] == mark
    ensures subject == "" || mark == "" || !StoresOwnProperty(marks, subject) ==> r == marks
  {
    if subject != "" && mark != "" && StoresOwnProperty(marks, subject) then marks[subject := mark] else marks
  }

  /** UPDATE students SET attendance=?, marks=? WHERE id=? */
  function SetAttendanceAndMarks(students: seq<Student>, id: int, attendance: string, marks: map<string, string>): (r: seq<Student>)
    ensures |r| == |students|
    ensures forall i :: 0 <= i < |r| ==> r[i].id == students[i].id && r[i].name == students[i].name
    ensures forall i :: 0 <= i < |r| && students[i].id != id ==> r[i] == students[i]
    ensures forall i :: 0 <= i < |r| && students[i].id == id ==> r[i].attendance == attendance && r[i].marks == marks
  {
    seq(|students|, i requires 0 <= i < |students| =>
      if students[i].id == id then students[i].(attendance := attendance, marks := marks) else students[i])
  }

  /** POST /updateByUsername. A username whose row in `students` is missing
      makes the source throw; that is the StudentRowMissing reply. */
  function UpdateByUsername(t: Tables, username: string, attendance: string, subject: string, mark: string): (r: Step)
    ensures r.tables.users == t.users
    ensures r.tables.studentSeq == t.studentSeq && r.tables.userSeq == t.userSeq
    ensures |r.tables.students| == |t.students|
    ensures r.reply == UserNotFound <==> !Taken(t.users, username)
    ensures r.reply != StudentUpdated ==> r.tables == t
  {
    match FindUser(t.users, username)
    case None => Step(UserNotFound, t)
    case Some(u) =>
      match FindStudent(t.students, u.studentId)
      case None => Step(StudentRowMissing, t)
      case Some(s) =>
        var marks := UpsertMark(s.marks, subject, mark);
        Step(StudentUpdated, t.(students := SetAttendanceAndMarks(t.students, u.studentId, attendance, marks)))
  }

  /** DELETE FROM students WHERE id=? */
  function WithoutStudent(students: seq<Student>, id: int): (r: seq<Student>)
    ensures |r| <= |students|
    ensures forall s :: s in r <==> s in students && s.id != id
    ensures (forall s :: s in students ==> s.id != id) ==> r == students
  {
    if students == [] then []
    else
      var rest := WithoutStudent(students[1..], id);
      if students[0].id == id then rest
      else
        assert students == [students[0]] + students[1..];
        [students[0]] + rest
  }

  /** DELETE FROM users WHERE studentId=? */
  function WithoutUsersOf(users: seq<User>, id: int): (r: seq<User>)
    ensures forall u :: u in r <==> u in users && u.studentId != id
    ensures (forall u :: u in users ==> u.studentId != id) ==> r == users
  {
    if users == [] then []
    else
      var rest := WithoutUsersOf(users[1..], id);
      if users[0].studentId == id then rest
      else
        assert users == [users[0]] + users[1..];
        [users[0]] + rest
  }

  /** DELETE /deleteStudent/:id: the student row and every account pointing at
      that id, whatever its role. */
  function DeleteStudent(t: Tables, id: int): (r: Step)
    ensures r.reply == StudentDeleted
    ensures r.tables.studentSeq == t.studentSeq && r.tables.userSeq == t.userSeq
    ensures |r.tables.students| <= |t.students|
    ensures GetStudent(r.tables, id).None?
  {
    Step(StudentDeleted, t.(students := WithoutStudent(t.students, id), users := WithoutUsersOf(t.users, id)))
  }

  lemma {:induction false} WithoutStudentAscending(students: seq<Student>, id: int)
    requires StudentIdsAscending(students)
    ensures StudentIdsAscending(WithoutStudent(students, id))
  {
    if students != [] {
      var rest := WithoutStudent(students[1..], id);
      WithoutStudentAscending(students[1..], id);
      if students[0].id != id {
        var r := [students[0]] + rest;
        forall i, j | 0 <= i < j < |r| ensures r[i].id < r[j].id {
          if i == 0 {
            assert r[j] in students[1..];
          }
        }
      }
    }
  }

  lemma {:induction false} WithoutUsersOfAscending(users: seq<User>, id: int)
    requires UserIdsAscending(users)
    ensures UserIdsAscending(WithoutUsersOf(users, id))
  {
    if users != [] {
      var rest := WithoutUsersOf(users[1..], id);
      WithoutUsersOfAscending(users[1..], id);
      if users[0].studentId != id {
        var r := [users[0]] + rest;
        forall i, j | 0 <= i < j < |r| ensures r[i].id < r[j].id {
          if i == 0 {
            assert r[j] in users[1..];
          }
        }
      }
    }
  }

  /** Every listed student is what GET /student/:id returns for its id, and
      every student that GET returns is listed. */
  lemma ListAgreesWithGet(t: Tables)
    requires Valid(t)
    ensures forall s :: s in ListStudents(t) ==> GetStudent(t, s.id) == Some(s)
    ensures forall id :: GetStudent(t, id).Some? ==> GetStudent(t, id).value in ListStudents(t)
  {
    forall s | s in t.students ensures GetStudent(t, s.id) == Some(s) {
      FindStudentExact(t.students, s);
    }
  }

  /** An unknown username changes nothing. */
  lemma UpdateUnknownUser(t: Tables, username: string, attendance: string, subject: string, mark: string)
    requires !Taken(t.users, username)
    ensures UpdateByUsername(t, username, attendance, subject, mark) == Step(UserNotFound, t)
  {
  }

  /** Staff and admin accounts point at student id 0, which no row has: the
      update never reaches a student and changes nothing. */
  lemma UpdateAccountWithoutStudent(t: Tables, u: User, attendance: string, subject: string, mark: string)
    requires Valid(t)
    requires u in t.users && u.role != StudentRole
    ensures UpdateByUsername(t, u.username, attendance, subject, mark) == Step(StudentRowMissing, t)
  {
    assert Linked(t.students, u);
    assert 0 !in StudentIds(t.students);
  }

  /** For a student account, the update overwrites the attendance of exactly
      the linked student, upserts at most the one subject, and leaves every
      other student, every account and both counters as they were. */
  lemma UpdateStudentAccount(t: Tables, u: User, attendance: string, subject: string, mark: string)
    requires Valid(t)
    requires u in t.users && u.role == StudentRole
    ensures var s := UpdateByUsername(t, u.username, attendance, subject, mark);
      && s.reply == StudentUpdated
      && Valid(s.tables)
      && s.tables.users == t.users
      && s.tables.studentSeq == t.studentSeq && s.tables.userSeq == t.userSeq
      && |s.tables.students| == |t.students|
      && (forall i :: 0 <= i < |t.students| && t.students[i].id != u.studentId ==>
            s.tables.students[i] == t.students[i])
      && (forall i :: 0 <= i < |t.students| && t.students[i].id == u.studentId ==>
            s.tables.students[i] == t.students[i].(attendance := attendance,
                                                   marks := UpsertMark(t.students[i].marks, subject, mark)))
  {
    assert FindUser(t.users, u.username) == Some(u);
    assert Linked(t.students, u);
    var w :| w in t.students && w.id == u.studentId;
    FindStudentExact(t.students, w);
    SetAttendanceAndMarksValid(t, u.studentId, attendance, UpsertMark(w.marks, subject, mark));
    forall i | 0 <= i < |t.students| && t.students[i].id == u.studentId
      ensures t.students[i] == w
    {
      var k :| 0 <= k < |t.students| && t.students[k] == w;
      assert !(i < k) && !(k < i);
    }
  }

  /** The UPDATE keeps every id, so it keeps the invariant. */
  lemma SetAttendanceAndMarksValid(t: Tables, id: int, attendance: string, marks: map<string, string>)
    requires Valid(t)
    ensures Valid(t.(students := SetAttendanceAndMarks(t.students, id, attendance, marks)))
  {
    var r := t.(students := SetAttendanceAndMarks(t.students, id, attendance, marks));
    assert forall k :: 0 <= k < |t.students| ==> r.students[k].id == t.students[k].id;
    assert StudentIds(r.students) == StudentIds(t.students) by {
      forall x | x in StudentIds(t.students) ensures x in StudentIds(r.students) {
        var s :| s in t.students && s.id == x;
        var k :| 0 <= k < |t.students| && t.students[k] == s;
        assert r.students[k] in r.students;
      }
      forall x | x in StudentIds(r.students) ensures x in StudentIds(t.students) {
        var s :| s in r.students && s.id == x;
        var k :| 0 <= k < |r.students| && r.students[k] == s;
        assert t.students[k] in t.students;
      }
    }
    forall s | s in r.students ensures 1 <= s.id <= r.studentSeq {
      var k :| 0 <= k < |r.students| && r.students[k] == s;
      assert t.students[k] in t.students;
    }
    forall v | v in r.users ensures Linked(r.students, v) {
      assert Linked(t.students, v);
    }
  }

  /** Deleting removes that student and every account pointing at its id, and
      nothing else; GET for that id then answers null. */
  lemma DeleteStudentEffect(t: Tables, id: int)
    requires Valid(t)
    ensures var r := DeleteStudent(t, id).tables;
      && Valid(r)
      && (forall s :: s in r.students <==> s in t.students && s.id != id)
      && (forall u :: u in r.users <==> u in t.users && u.studentId != id)
      && r.studentSeq == t.studentSeq && r.userSeq == t.userSeq
      && GetStudent(r, id) == None
  {
    var r := DeleteStudent(t, id).tables;
    WithoutStudentAscending(t.students, id);
    WithoutUsersOfAscending(t.users, id);
    forall v | v in r.users ensures Linked(r.students, v) {
      assert Linked(t.students, v);
      if v.role == StudentRole {
        var s :| s in t.students && s.id == v.studentId;
        assert s in r.students;
      }
    }
  }

  /** Staff and admin accounts carry studentId 0, so deleting student 0 keeps
      every student and every student account but wipes all staff and admin
      accounts, the seeded admin included. */
  lemma DeleteZeroRemovesStaffAndAdmin(t: Tables)
    requires Valid(t)
    ensures var r := DeleteStudent(t, 0).tables;
      && r.students == t.students
      && (forall u :: u in r.users <==> u in t.users && u.role == StudentRole)
      && CountRole(r.users, StaffRole) == 0
      && CountRole(r.users, AdminRole) == 0
  {
    var r := DeleteStudent(t, 0).tables;
    forall u | u in t.users ensures u.studentId == 0 <==> u.role != StudentRole {
      assert Linked(t.students, u);
      if u.role == StudentRole {
        var s :| s in t.students && s.id == u.studentId;
      }
    }
    CountRoleNone(r.users, StaffRole);
    CountRoleNone(r.users, AdminRole);
  }
}
